=== FILE: README.md ===
# ApiApp search screen — a Dafny model

ApiApp is a one-screen iOS app that searches a restaurant directory through a
paginated web API, shows the results in a table, lets the user star shops as
favorites (kept in a local database) and opens a shop's coupon page. All of
its logic sits in one view controller, `ApiViewController`. This project
models the part of it that is not UI glue:

- **the paginated result list** (`updateShopArray` and its completion
  handler): two guards (a request already in flight; an append asked for after
  the last page), the 1-based start offset, the page size of 20, the
  `isLoading` flag set by the request and cleared by the response, and the
  merge of the response into the list — append, replace, or clear on failure —
  with the `isLastLoaded` flag;
- **the scroll trigger**: rendering row `r` of a list of `n` shops asks for the
  next page when `n - r < 10`;
- **the favorites store** (`tapFavoriteButton`): a map from shop id to a
  favorite record; the star deletes the shop's record if present and inserts a
  new one otherwise;
- **the coupon URL rule**: the mobile (`sp`) URL when non-empty, else the
  desktop (`pc`) one, used both when a row is selected and when a favorite is
  stored.

Layout:

- `shops.dfy` (`Shops`): the `Shop` record (only the fields the screen reads)
  and `CouponUrl`.
- `favorites.dfy` (`Favorites`): `FavoriteShop`, the store as a map,
  `IsFavorite` (the shop's favorite flag, which is id membership in the store),
  `ToggleFavorite` and its lemmas.
- `pagination.dfy` (`Pagination`): the list state `Pager` as a value, the
  request step `Begin`, the response step `Complete`, the trigger
  `ShouldPrefetch`, and one lemma per behaviour of those steps.
- `session.dfy` (`Session`): the screen over time. User actions and API
  answers are a sequence of events. `pending` stands for the one completion
  handler left outstanding, with the `appendLoad` flag it captured. Inductive
  lemmas cover whole event sequences.
- `api_view.dfy` (`ApiView`): the class `ApiViewController` with the source's
  fields, updated in place by imperative methods. Each method is proved equal
  to the `Pagination`, `Favorites` or `Shops` function for the same step.
- `wrappers.dfy` (`Wrappers`): `Option`.

Behaviour the model keeps as written: a search clicked while a request is in
flight still changes `searchWord`, but no request is sent
(`Session.LoadingIgnoresTriggers`). What happens next depends on the request
in flight:

- If it is the next page, that page is appended to the old keyword's shops.
  The following page is then asked for with the new keyword, from the mixed
  list's offset (`Session.SearchWhileLoadingMixesKeywords`).
- If it is a fresh load, such as an earlier search not yet answered, the
  arriving page replaces the list. The new search is lost: the old keyword's
  shops are shown, and the next page is asked for with the new keyword
  (`Session.SearchWhileSearchingIsLost`).

Details of the code that the model keeps:

- The scroll trigger fires on the last nine rows (`count - row < 10`).
- A favorite is never added twice, because the star tests membership first.
- Success with a non-empty appended page leaves `isLastLoaded` as it was.

## Model

| member | source | states |
|---|---|---|
| Shops.CouponUrl | ApiApp/ApiViewController.swift:150-154 | the coupon URL is `sp` when `sp` is non-empty, else `pc`; it is empty only when both are |
| Favorites.NewFavorite | ApiApp/ApiViewController.swift:175-184 | the inserted record carries the shop's id, name, address and logo URL, and its coupon URL is `CouponUrl(shop)` |
| Favorites.IsFavorite | ApiApp/ApiViewController.swift:166-171 | a shop is a favorite exactly when its id is stored; then the lookup before deletion finds a record, which in a keyed store is the shop's own |
| Favorites.ToggleFavorite | ApiApp/ApiViewController.swift:166-186 | the shop's favorite flag flips; an inserted record is the shop's id, name, logo URL, address and resolved coupon URL; no other key or record changes; records stay stored under their own id |
| Favorites.ToggleTwiceRestores | ApiApp/ApiViewController.swift:166-186 | adding a shop to the favorites and tapping again removes exactly what was added |
| Favorites.StoredCouponIsResolvedCoupon | ApiApp/ApiViewController.swift:180-184 | the stored favorite's coupon URL follows the same rule as row selection (desktop URL when the mobile one is empty) |
| Pagination.Begin | ApiApp/ApiViewController.swift:55-85 | a refused update changes nothing and nothing is sent while loading; a sent request comes from an idle list and changes only `isLoading`, asks for 20 shops of the current keyword, and starts within or just past the loaded shops |
| Pagination.Complete | ApiApp/ApiViewController.swift:87-120 | both success and failure end loading and keep the keyword; on success the list is the page after the old shops (append) or alone (fresh load); on failure the list is empty and the results ended; results end only on failure, an empty page, or an append after the end |
| Pagination.ShouldPrefetch | ApiApp/ApiViewController.swift:139 | the last row always asks for the next page; a row ten or more rows before the end never does |
| Pagination.BeginGuards | ApiApp/ApiViewController.swift:56-64 | no request is sent iff a request is in flight or an append is asked for after the last page (that the state is then unchanged is in `Begin`'s contract) |
| Pagination.BeginRequest | ApiApp/ApiViewController.swift:66-83 | a sent request starts at `count + 1` when appending and at 1 otherwise, asks for 20 shops with the current keyword, and sets only `isLoading` |
| Pagination.CompleteAppend | ApiApp/ApiViewController.swift:99-101 | an appended page is concatenated after the old list, which stays a prefix; end-of-results is set by an empty page and otherwise kept |
| Pagination.CompleteReplace | ApiApp/ApiViewController.swift:102-110 | a fresh page replaces the list and `isLastLoaded` becomes "the page is empty" |
| Pagination.CompleteEmptyPage | ApiApp/ApiViewController.swift:107-110 | an empty page sets `isLastLoaded`; an empty appended page leaves the list unchanged |
| Pagination.CompleteFailure | ApiApp/ApiViewController.swift:113-117 | a failure empties the list, sets `isLastLoaded` and the "no results" status, whatever the kind of load |
| Pagination.AppendedPageLandsAtStart | ApiApp/ApiViewController.swift:67-101 | the page requested from 1-based offset `start` occupies positions `start..` of the list, after the unchanged old shops |
| Pagination.PrefetchWindow | ApiApp/ApiViewController.swift:139-141 | a rendered row triggers the next page exactly when it is among the last nine rows; with fewer than ten shops every row triggers |
| Session.Start | ApiApp/ApiViewController.swift:55-85 | an update attempt changes only `isLoading`; a sent request leaves the list loading with its own `appendLoad` pending; a refused one changes nothing |
| Session.Step | ApiApp/ApiViewController.swift:44-121 | each event (refresh, search, rendered row, response): only a response changes the list and consumes the pending completion; only a search changes the keyword; `isLoading` stays true exactly while a completion is outstanding |
| Session.Sent | ApiApp/ApiViewController.swift:44-201 | refresh and search send a fresh load (start 1) exactly when idle; a rendered row sends the next page (start `count + 1`) exactly when it triggers on an idle list whose results have not ended; a request asks for one page of the keyword in force and leaves its completion pending; an event that sends nothing changes nothing but the keyword; a response sends nothing |
| Session.RunConsistent | ApiApp/ApiViewController.swift:55-121 | from a consistent screen, `isLoading` stays true exactly while a completion is pending, after any sequence of events |
| Session.AtMostOneOutstanding | ApiApp/ApiViewController.swift:57-89 | on every screen reachable from launch, a request is sent only when none is pending, and it is then the one pending |
| Session.LoadingIgnoresTriggers | ApiApp/ApiViewController.swift:57-59 | while a request is in flight, any searches, refreshes and scrolling send nothing and change nothing but the keyword |
| Session.EndOfResultsIgnoresScrolling | ApiApp/ApiViewController.swift:61-64 | once the results have ended, any amount of scrolling leaves the screen unchanged |
| Session.ScrollingOnlyGrows | ApiApp/ApiViewController.swift:99-101 | while the user only scrolls and responses succeed, the previously loaded shops stay a prefix of the list |
| Session.SearchThenExhaust | ApiApp/ApiViewController.swift:55-121 | a search answered with 20 shops, then row 11 asking for offset 21, answered with an empty page, keeps the 20 shops and ends the results |
| Session.SearchWhileLoadingMixesKeywords | ApiApp/ApiViewController.swift:192-201 | a search clicked while the next page loads sends nothing but changes the keyword; the arriving page is appended to the old keyword's shops, and the next page is asked for with the new keyword at offset 41 |
| Session.SearchWhileSearchingIsLost | ApiApp/ApiViewController.swift:192-201 | a second search clicked before the first is answered sends nothing; the first keyword's page replaces the list under the second keyword, and the next page is asked for with the second keyword at offset 21 |
| Session.FailedSearch | ApiApp/ApiViewController.swift:113-117 | a failed search leaves an empty list, ended results and the "no results" status |
| ApiView.ApiViewController.constructor | ApiApp/ApiViewController.swift:21-25 | a new screen has an empty list, both flags false, an empty keyword, and the stored favorites, each stored under its own id |
| ApiView.ApiViewController.BeginUpdate | ApiApp/ApiViewController.swift:55-85 | the in-place request step equals `Begin`: nothing changes while loading; a sent request asks for 20 shops and sets `isLoading` |
| ApiView.ApiViewController.CompleteUpdate | ApiApp/ApiViewController.swift:87-120 | the in-place completion handler equals `Complete`: `isLoading` cleared, append concatenates, failure clears |
| ApiView.ApiViewController.Refresh | ApiApp/ApiViewController.swift:44-47 | pull to refresh is a fresh load (`Begin` with `appendLoad` false) |
| ApiView.ApiViewController.SearchButtonClicked | ApiApp/ApiViewController.swift:192-201 | the typed text becomes the keyword, then a fresh load is attempted |
| ApiView.ApiViewController.CellForRow | ApiApp/ApiViewController.swift:127-144 | the rendered shop is row `row`; its star shows id membership in the store; the next page is requested exactly when `ShouldPrefetch` holds |
| ApiView.ApiViewController.DidSelectRow | ApiApp/ApiViewController.swift:146-154 | the coupon page opened for a row is `CouponUrl` of that row's shop |
| ApiView.ApiViewController.TapFavoriteButton | ApiApp/ApiViewController.swift:161-189 | the star button updates the store exactly as `ToggleFavorite` does for that row's shop, and every record stays stored under its own id |

## Left out

- The HTTP request and JSON decoding (line 87) are done by libraries. The
  decoded outcome is an input to the response step.
- The API key is read from a bundled property list at startup (lines 33-36),
  and the `key` and `format` request parameters are not modelled.
- The favorites database's transactions, durability and atomicity (lines 19,
  168-186) belong to a database library. The store is an in-memory map.
- `Shop.isFavorite` is declared outside this file. It is modelled as membership
  of the shop's id in the store. Under that reading the forced lookup before
  deletion (line 169) cannot fail.
- Cell rendering, image loading, the refresh control and its spinner, the
  Safari view, `reloadData` and `viewWillAppear` are UI. The status label is
  kept as a string field.
- Scheduling is abstracted: UI events and completion handlers all run on the
  main queue. Each one is a single atomic step, and `appendLoad` is captured
  when the request is sent.
- A request that never completes is a sequence with no response event. The
  list then stays loading for good, and every later update attempt is refused
  (`Session.LoadingIgnoresTriggers`). No timeout exists in the code.
- Shops.CouponUrl and ApiView.ApiViewController.DidSelectRow return "" when both
  coupon URLs are empty. The code would then crash building the URL at line 155.
  Opening the page is left out.
- Swift `Int` is 64-bit. The model uses unbounded integers, since list sizes
  never approach the limit.
- Logging through `print` is left out.
- A rendered row outside the list is treated as no event in `Session.Step`. The
  table only renders rows that exist, and the source would index out of
  bounds on any other row.

=== FILE: api_view.dfy ===
/**
 * The search screen's view controller: its list and flags updated in place by
 * the request step, the completion handler and the row callbacks, and the
 * favorites store updated by the star button.
 */
module ApiView {
  import opened Wrappers
  import opened Shops
  import opened Favorites
  import opened Pagination

  class ApiViewController {
    var shopArray: seq<Shop>
    var isLoading: bool
    var isLastLoaded: bool
    var searchWord: string
    var statusText: string
    /** The favorites database, keyed by shop id. */
    var favorites: Store

    /** The list state as a value. */
    function View(): Pager
      reads this
    {
      Pager(shopArray, isLoading, isLastLoaded, searchWord, statusText)
    }

    /** A fresh screen over the favorites already stored, each under its own id (the database's primary key). */
    constructor (stored: Store)
      requires Keyed(stored)
      ensures Keyed(favorites)
      ensures View() == Initial && favorites == stored
    {
      shopArray := [];
      isLoading := false;
      isLastLoaded := false;
      searchWord := "";
      statusText := "";
      favorites := stored;
    }

    /** Starts loading the list (a fresh load, or the next page when `appendLoad`). */
    method BeginUpdate(appendLoad: bool) returns (request: Option<Request>)
      modifies this
      ensures View() == Begin(old(View()), appendLoad).next
      ensures request == Begin(old(View()), appendLoad).request
      ensures old(isLoading) ==> request.None? && View() == old(View())
      ensures request.Some? ==> isLoading && request.value.count == PageSize
      ensures favorites == old(favorites)
    {
      request := None;
      if isLoading {
        return;
      }
      if appendLoad && isLastLoaded {
        return;
      }
      var startIndex: int;
      if appendLoad {
        startIndex := |shopArray| + 1;
      } else {
        startIndex := 1;
      }
      isLoading := true;
      request := Some(Request(startIndex, PageSize, searchWord));
    }

    /** The completion handler of the request sent by `BeginUpdate(appendLoad)`. */
    method CompleteUpdate(appendLoad: bool, response: Response)
      modifies this
      ensures View() == Complete(old(View()), appendLoad, response)
      ensures !isLoading
      ensures response.Success? && appendLoad ==> shopArray == old(shopArray) + response.page
      ensures response.Failure? ==> shopArray == [] && isLastLoaded
      ensures favorites == old(favorites)
    {
      isLoading := false;
      match response
      case Success(page) =>
        if appendLoad {
          shopArray := shopArray + page;
        } else {
          shopArray := page;
          isLastLoaded := false;
        }
        if |page| == 0 {
          isLastLoaded := true;
        }
        statusText := "";
      case Failure =>
        shopArray := [];
        isLastLoaded := true;
        statusText := NoResultsMessage;
    }

    /** Pull to refresh: a fresh load. */
    method Refresh() returns (request: Option<Request>)
      modifies this
      ensures View() == Begin(old(View()), false).next
      ensures request == Begin(old(View()), false).request
      ensures favorites == old(favorites)
    {
      request := BeginUpdate(false);
    }

    /** The search button: the typed text becomes the keyword, then a fresh load. */
    method SearchButtonClicked(text: string) returns (request: Option<Request>)
      modifies this
      ensures View() == Begin(old(View()).(searchWord := text), false).next
      ensures request == Begin(old(View()).(searchWord := text), false).request
      ensures searchWord == text
      ensures favorites == old(favorites)
    {
      searchWord := text;
      request := BeginUpdate(false);
    }

    /**
     * Rendering row `row`: the shop shown, its star, and the next-page request
     * when the row is near the end of the list.
     */
    method CellForRow(row: int) returns (shop: Shop, starred: bool, request: Option<Request>)
      requires 0 <= row < |shopArray|
      modifies this
      ensures shop == old(shopArray)[row]
      ensures starred <==> shop.id in favorites
      ensures ShouldPrefetch(|old(shopArray)|, row) ==> View() == Begin(old(View()), true).next && request == Begin(old(View()), true).request
      ensures !ShouldPrefetch(|old(shopArray)|, row) ==> View() == old(View()) && request.None?
      ensures favorites == old(favorites)
    {
      shop := shopArray[row];
      starred := IsFavorite(favorites, shop);
      request := None;
      if |shopArray| - row < PrefetchDistance {
        request := BeginUpdate(true);
      }
    }

    /** Selecting row `row`: the coupon page to open. */
    method DidSelectRow(row: int) returns (url: string)
      requires 0 <= row < |shopArray|
      ensures url == CouponUrl(shopArray[row])
    {
      var shop := shopArray[row];
      if shop.couponUrls.sp == "" {
        url := shop.couponUrls.pc;
      } else {
        url := shop.couponUrls.sp;
      }
    }

    /** The star button of row `row`: removes the shop from the favorites, or adds it. */
    method TapFavoriteButton(row: int)
      requires 0 <= row < |shopArray|
      requires Keyed(favorites)
      modifies this`favorites
      ensures favorites == ToggleFavorite(old(favorites), shopArray[row])
      ensures Keyed(favorites)
    {
      var shop := shopArray[row];
      if IsFavorite(favorites, shop) {
        favorites := favorites - {shop.id};
      } else {
        var couponUrl: string;
        if shop.couponUrls.sp == "" {
          couponUrl := shop.couponUrls.pc;
        } else {
          couponUrl := shop.couponUrls.sp;
        }
        favorites := favorites[shop.id := FavoriteShop(shop.id, shop.name, shop.logoImage, shop.address, couponUrl)];
      }
    }
  }
}

=== FILE: favorites.dfy ===
/**
 * The favorites store: records keyed by shop id. The persistent database of the
 * app is modelled as an in-memory map.
 */
module Favorites {
  import opened Shops

  datatype FavoriteShop = FavoriteShop(
    id: string,
    name: string,
    logoImageUrl: string,
    address: string,
    couponUrl: string)

  type Store = map<string, FavoriteShop>

  /**
   * The record inserted when a shop is marked as a favorite: the shop's id,
   * name, address and logo, and its resolved coupon URL.
   */
  function NewFavorite(shop: Shop): (f: FavoriteShop)
    ensures f.id == shop.id && f.name == shop.name && f.address == shop.address && f.logoImageUrl == shop.logoImage
    ensures f.couponUrl == CouponUrl(shop)
  {
    FavoriteShop(shop.id, shop.name, shop.logoImage, shop.address, CouponUrl(shop))
  }

  /**
   * A shop's favorite flag: whether its id is a key of the store. When it is
   * set, looking the shop's id up finds a record (so the lookup before a
   * deletion cannot come back empty), and in a keyed store that record is the
   * shop's own.
   */
  function IsFavorite(store: Store, shop: Shop): (b: bool)
    ensures b ==> shop.id in store
    ensures b && Keyed(store) ==> store[shop.id].id == shop.id
    ensures !b ==> shop.id !in store
  {
    shop.id in store
  }

  /** Every record is stored under its own id (the id is the primary key). */
  ghost predicate Keyed(store: Store)
  {
    forall k :: k in store ==> store[k].id == k
  }

  /**
   * Tapping the star of a shop: a favorite is deleted, any other shop is
   * inserted under its id.
   */
  function ToggleFavorite(store: Store, shop: Shop): (r: Store)
    ensures IsFavorite(r, shop) <==> !IsFavorite(store, shop)
    ensures IsFavorite(r, shop) ==> r[shop.id] == NewFavorite(shop)
    ensures forall k :: k != shop.id ==> (k in r <==> k in store)
    ensures forall k :: k != shop.id && k in store ==> r[k] == store[k]
    ensures Keyed(store) ==> Keyed(r)
  {
    if shop.id in store then store - {shop.id} else store[shop.id := NewFavorite(shop)]
  }

  /** Adding a favorite and then removing it gives back the store one started with. */
  lemma ToggleTwiceRestores(store: Store, shop: Shop)
    requires !IsFavorite(store, shop)
    ensures ToggleFavorite(ToggleFavorite(store, shop), shop) == store
  {
  }

  /** The stored coupon URL is the one that opening the shop's coupon page uses. */
  lemma StoredCouponIsResolvedCoupon(store: Store, shop: Shop)
    requires !IsFavorite(store, shop)
    ensures ToggleFavorite(store, shop)[shop.id].couponUrl == CouponUrl(shop)
    ensures shop.couponUrls.sp == "" ==> ToggleFavorite(store, shop)[shop.id].couponUrl == shop.couponUrls.pc
  {
  }
}

=== FILE: pagination.dfy ===
/**
 * The paginated search list: the request step and the response step of
 * updating the shop list, as functions on the list's state.
 */
module Pagination {
  import opened Wrappers
  import opened Shops

  // The constants below are the literals of the view controller.

  /** Number of shops asked for by every request. */
  const PageSize: int := 20

  /** Status text shown when a request fails. */
  const NoResultsMessage: string := "検索結果が存在しません"

  /** A row this close to the end of the loaded list (in rows) asks for the next page. */
  const PrefetchDistance: int := 10

  /** The state of the list: loaded shops, the two flags, the keyword and the status text. */
  datatype Pager = Pager(
    shops: seq<Shop>,
    isLoading: bool,
    isLastLoaded: bool,
    searchWord: string,
    status: string)

  /** The search parameters sent to the API; `start` is 1-based. */
  datatype Request = Request(start: int, count: int, keyword: string)

  /** What the completion handler receives: a decoded page of shops, or an error. */
  datatype Response = Success(page: seq<Shop>) | Failure

  /** The state after the request step, and the request it sends, if any. */
  datatype Begun = Begun(next: Pager, request: Option<Request>)

  const Initial: Pager := Pager([], false, false, "", "")

  /** The two guards: a request is in flight, or an append asked for after the last page. */
  predicate Blocked(p: Pager, appendLoad: bool)
  {
    p.isLoading || (appendLoad && p.isLastLoaded)
  }

  /**
   * The request step of updating the list. A refused update changes nothing;
   * a request is sent only from an idle list, changes nothing but the loading
   * flag, and asks for one page of the current keyword from a position inside
   * or just past the loaded shops.
   */
  function Begin(p: Pager, appendLoad: bool): (r: Begun)
    ensures r.request.None? ==> r.next == p
    ensures r.request.Some? ==> !p.isLoading && r.next == p.(isLoading := true)
    ensures r.request.Some? ==> r.request.value.count == PageSize && r.request.value.keyword == p.searchWord
    ensures r.request.Some? ==> 1 <= r.request.value.start <= |p.shops| + 1
    ensures p.isLoading ==> r.request.None?
  {
    if Blocked(p, appendLoad) then
      Begun(p, None)
    else
      var start := if appendLoad then |p.shops| + 1 else 1;
      Begun(p.(isLoading := true), Some(Request(start, PageSize, p.searchWord)))
  }

  /**
   * The response step: the completion handler of the request sent by
   * `Begin(_, appendLoad)`. It always ends the loading state and keeps the
   * keyword; the new list is made of the old one and the page (appended
   * after the old shops, or in their place), or is empty after a failure.
   */
  function Complete(p: Pager, appendLoad: bool, response: Response): (r: Pager)
    ensures !r.isLoading && r.searchWord == p.searchWord
    ensures response.Success? ==> r.shops == (if appendLoad then p.shops else []) + response.page
    ensures response.Failure? ==> r.shops == [] && r.isLastLoaded
    ensures r.isLastLoaded ==> response.Failure? || response.page == [] || (appendLoad && p.isLastLoaded)
  {
    var idle := p.(isLoading := false);
    match response
    case Success(page) =>
      var merged :=
        if appendLoad then idle.(shops := idle.shops + page)
        else idle.(shops := page, isLastLoaded := false);
      merged.(isLastLoaded := |page| == 0 || merged.isLastLoaded, status := "")
    case Failure =>
      idle.(shops := [], isLastLoaded := true, status := NoResultsMessage)
  }

  /**
   * Rendering row `row` of a list of `count` shops asks for the next page:
   * the last row always does, a row ten or more rows before the end never does.
   */
  function ShouldPrefetch(count: int, row: int): (b: bool)
    ensures row == count - 1 ==> b
    ensures row <= count - PrefetchDistance ==> !b
    ensures b && row < count ==> count - row <= 9
  {
    count - row < PrefetchDistance
  }

  // ----- The request step -----

  /** Exactly the two guards refuse an update; an unblocked one always sends. */
  lemma BeginGuards(p: Pager, appendLoad: bool)
    ensures Begin(p, appendLoad).request.None? <==> p.isLoading || (appendLoad && p.isLastLoaded)
  {
  }

  /** An issued request starts after the loaded shops when appending and at 1 otherwise,
      asks for 20 shops with the current keyword, and marks the list as loading. */
  lemma BeginRequest(p: Pager, appendLoad: bool)
    requires !p.isLoading && !(appendLoad && p.isLastLoaded)
    ensures Begin(p, appendLoad).request == Some(Request(if appendLoad then |p.shops| + 1 else 1, 20, p.searchWord))
    ensures Begin(p, appendLoad).next.isLoading
    ensures Begin(p, appendLoad).next.(isLoading := false) == p
  {
  }

  // ----- The response step -----

  /** An appended page follows the shops already loaded, which stay a prefix. */
  lemma CompleteAppend(p: Pager, page: seq<Shop>)
    ensures Complete(p, true, Success(page)).shops == p.shops + page
    ensures p.shops <= Complete(p, true, Success(page)).shops
    ensures Complete(p, true, Success(page)).isLastLoaded <==> p.isLastLoaded || |page| == 0
    ensures Complete(p, true, Success(page)).status == ""
  {
  }

  /** A fresh page replaces the list and resets the end-of-results flag unless it is empty. */
  lemma CompleteReplace(p: Pager, page: seq<Shop>)
    ensures Complete(p, false, Success(page)).shops == page
    ensures Complete(p, false, Success(page)).isLastLoaded <==> |page| == 0
    ensures Complete(p, false, Success(page)).status == ""
  {
  }

  /** An empty page marks the end of the results; an empty appended page leaves the list as it was. */
  lemma CompleteEmptyPage(p: Pager, appendLoad: bool)
    ensures Complete(p, appendLoad, Success([])).isLastLoaded
    ensures appendLoad ==> Complete(p, appendLoad, Success([])).shops == p.shops
  {
  }

  /** A failure clears the list, marks the end of the results and reports "no results", whatever kind of load it was. */
  lemma CompleteFailure(p: Pager, appendLoad: bool)
    ensures Complete(p, appendLoad, Failure).shops == []
    ensures Complete(p, appendLoad, Failure).isLastLoaded
    ensures Complete(p, appendLoad, Failure).status == NoResultsMessage
  {
  }

  /** The page fetched from 1-based offset `start` lands at exactly that position of the list. */
  lemma AppendedPageLandsAtStart(p: Pager, page: seq<Shop>)
    requires !p.isLoading && !p.isLastLoaded
    ensures Begin(p, true).request.Some?
    ensures var start := Begin(p, true).request.value.start;
            var shops := Complete(Begin(p, true).next, true, Success(page)).shops;
            1 <= start <= |shops| + 1 && shops[..start - 1] == p.shops && shops[start - 1..] == page
  {
  }

  // ----- The scroll trigger -----

  /** For a row on screen, the trigger fires exactly on the last nine rows; with fewer
      than ten shops loaded every row fires, and the last row always does. */
  lemma PrefetchWindow(count: int, row: int)
    requires 0 <= row < count
    ensures ShouldPrefetch(count, row) <==> count - 9 <= row
    ensures count < 10 ==> ShouldPrefetch(count, row)
    ensures ShouldPrefetch(count, count - 1)
  {
  }
}

=== FILE: session.dfy ===
/**
 * The search screen over time: the user's actions and the API's answers as a
 * sequence of events applied one after another. `pending` stands for the
 * completion handler of the outstanding request and holds the `appendLoad`
 * flag it captured.
 */
module Session {
  import opened Wrappers
  import opened Shops
  import opened Pagination

  datatype Event =
    | SearchClicked(word: string)   // the search button: set the keyword, then load afresh
    | Refreshed                     // pull to refresh: load afresh
    | RowShown(row: int)            // a row is rendered: may ask for the next page
    | Responded(response: Response) // the outstanding request completes

  datatype Screen = Screen(pager: Pager, pending: Option<bool>)

  const Launched: Screen := Screen(Initial, None)

  /**
   * The request step of `Pagination`, remembering the completion it leaves
   * outstanding: only the loading flag may change, and a sent request
   * leaves the list loading with its own `appendLoad` pending.
   */
  function Start(s: Screen, appendLoad: bool): (r: Screen)
    ensures r.pager == s.pager.(isLoading := r.pager.isLoading)
    ensures Begin(s.pager, appendLoad).request.Some? ==> r.pending == Some(appendLoad) && r.pager.isLoading
    ensures Begin(s.pager, appendLoad).request.None? ==> r == s
  {
    var b := Begin(s.pager, appendLoad);
    Screen(b.next, if b.request.Some? then Some(appendLoad) else s.pending)
  }

  /** Whether a rendered row asks for the next page; rows outside the list are never rendered. */
  predicate Triggers(s: Screen, row: int)
  {
    0 <= row < |s.pager.shops| && ShouldPrefetch(|s.pager.shops|, row)
  }

  /**
   * One event. Only a response changes the list, and it consumes the pending
   * completion; only a search changes the keyword.
   */
  function Step(s: Screen, e: Event): (r: Screen)
    ensures !e.Responded? ==> r.pager.shops == s.pager.shops
    ensures r.pager.searchWord == if e.SearchClicked? then e.word else s.pager.searchWord
    ensures e.Responded? && s.pending.Some? ==> r.pending.None? && !r.pager.isLoading
    ensures e.Responded? && s.pending.None? ==> r == s
    ensures Consistent(s) ==> Consistent(r)
  {
    match e
    case SearchClicked(word) => Start(s.(pager := s.pager.(searchWord := word)), false)
    case Refreshed => Start(s, false)
    case RowShown(row) => if Triggers(s, row) then Start(s, true) else s
    case Responded(response) =>
      if s.pending.Some? then Screen(Complete(s.pager, s.pending.value, response), None) else s
  }

  /**
   * The request, if any, that event `e` sends from screen `s`. A refresh or a
   * search sends a fresh load exactly when the list is idle; a rendered row
   * sends the next page exactly when it triggers on an idle list whose
   * results have not ended. A request asks for one page of the keyword in
   * force after the event and leaves its completion pending; an event that
   * sends nothing changes nothing but the keyword.
   */
  function Sent(s: Screen, e: Event): (r: Option<Request>)
    ensures r.Some? ==> !s.pager.isLoading && r.value.count == PageSize
    ensures r.Some? ==> Step(s, e).pager.isLoading && Step(s, e).pending.Some?
    ensures e.Responded? ==> r.None?
    ensures (e.Refreshed? || e.SearchClicked?) ==> (r.Some? <==> !s.pager.isLoading)
    ensures e.RowShown? ==> (r.Some? <==> Triggers(s, e.row) && !s.pager.isLoading && !s.pager.isLastLoaded)
    ensures r.Some? ==> r.value.start == (if e.RowShown? then |s.pager.shops| + 1 else 1)
    ensures r.Some? ==> r.value.keyword == Step(s, e).pager.searchWord
    ensures !e.Responded? && r.None? ==> Step(s, e).pending == s.pending
    ensures !e.Responded? && r.None? ==> Step(s, e).pager == s.pager.(searchWord := Step(s, e).pager.searchWord)
  {
    match e
    case SearchClicked(word) => Begin(s.pager.(searchWord := word), false).request
    case Refreshed => Begin(s.pager, false).request
    case RowShown(row) => if Triggers(s, row) then Begin(s.pager, true).request else None
    case Responded(_) => None
  }

  function Run(s: Screen, events: seq<Event>): (r: Screen)
    decreases |events|
  {
    if events == [] then s else Run(Step(s, events[0]), events[1..])
  }

  lemma RunCons(s: Screen, e: Event, rest: seq<Event>)
    ensures Run(s, [e] + rest) == Run(Step(s, e), rest)
  {
  }

  /** The loading flag is set exactly while a completion is outstanding. */
  ghost predicate Consistent(s: Screen)
  {
    s.pager.isLoading <==> s.pending.Some?
  }

  lemma {:induction false} RunConsistent(s: Screen, events: seq<Event>)
    requires Consistent(s)
    ensures Consistent(Run(s, events))
    decreases |events|
  {
    if events != [] {
      RunConsistent(Step(s, events[0]), events[1..]);
    }
  }

  /**
   * At most one request is outstanding: on every screen reachable from launch,
   * an event sends a request only when no completion is pending, and the
   * request it sends is then the one pending.
   */
  lemma AtMostOneOutstanding(events: seq<Event>, e: Event)
    ensures var s := Run(Launched, events);
            Sent(s, e).Some? ==> s.pending.None? && Step(s, e).pending.Some? && Step(s, e).pager.isLoading
  {
    RunConsistent(Launched, events);
  }

  /** Events that only try to start a load: everything but a response. */
  predicate NoResponse(events: seq<Event>)
  {
    forall i :: 0 <= i < |events| ==> !events[i].Responded?
  }

  /**
   * While a request is outstanding, searches, refreshes and scrolling send
   * nothing and change nothing but the keyword.
   */
  lemma {:induction false} LoadingIgnoresTriggers(s: Screen, events: seq<Event>)
    requires s.pager.isLoading && NoResponse(events)
    ensures Run(s, events).pending == s.pending
    ensures Run(s, events).pager == s.pager.(searchWord := Run(s, events).pager.searchWord)
    ensures forall i :: 0 <= i < |events| ==> Sent(Run(s, events[..i]), events[i]).None?
    decreases |events|
  {
    forall i | 0 <= i < |events|
      ensures Sent(Run(s, events[..i]), events[i]).None?
    {
      assert NoResponse(events[..i]) by {
        forall j | 0 <= j < i ensures !events[..i][j].Responded? {
          assert events[..i][j] == events[j];
        }
      }
      LoadingIgnoresTriggers(s, events[..i]);
    }
    if events != [] {
      assert NoResponse(events[1..]) by {
        forall i | 0 <= i < |events[1..]| ensures !events[1..][i].Responded? {
          assert events[1..][i] == events[i + 1];
        }
      }
      LoadingIgnoresTriggers(Step(s, events[0]), events[1..]);
    }
  }

  /** Events that are all rendered rows. */
  predicate OnlyRows(events: seq<Event>)
  {
    forall i :: 0 <= i < |events| ==> events[i].RowShown?
  }

  /** Once an empty page or a failure has ended the results, scrolling changes nothing. */
  lemma {:induction false} EndOfResultsIgnoresScrolling(s: Screen, events: seq<Event>)
    requires s.pager.isLastLoaded && OnlyRows(events)
    ensures Run(s, events) == s
    decreases |events|
  {
    if events != [] {
      assert OnlyRows(events[1..]) by {
        forall i | 0 <= i < |events[1..]| ensures events[1..][i].RowShown? {
          assert events[1..][i] == events[i + 1];
        }
      }
      EndOfResultsIgnoresScrolling(Step(s, events[0]), events[1..]);
    }
  }

  /** Events of uninterrupted scrolling: rendered rows and successful responses. */
  predicate Scrolling(events: seq<Event>)
  {
    forall i :: 0 <= i < |events| ==> events[i].RowShown? || (events[i].Responded? && events[i].response.Success?)
  }

  /**
   * While the user only scrolls and every response succeeds, the list only
   * grows: the shops loaded before stay a prefix, as long as no fresh load was
   * outstanding at the start.
   */
  lemma {:induction false} ScrollingOnlyGrows(s: Screen, events: seq<Event>)
    requires s.pending != Some(false) && Scrolling(events)
    ensures Run(s, events).pending != Some(false)
    ensures s.pager.shops <= Run(s, events).pager.shops
    decreases |events|
  {
    if events != [] {
      var next := Step(s, events[0]);
      assert s.pager.shops <= next.pager.shops;
      assert Scrolling(events[1..]) by {
        forall i | 0 <= i < |events[1..]| ensures events[1..][i] == events[i + 1] { }
      }
      ScrollingOnlyGrows(next, events[1..]);
    }
  }

  /**
   * A keyword search answered by a full page, then scrolling to row 11 which
   * asks for the page at offset 21, answered by an empty page: the list keeps
   * the first page and the results are marked as ended.
   */
  lemma SearchThenExhaust(page: seq<Shop>)
    requires |page| == 20
    ensures var first := Run(Launched, [SearchClicked("ramen"), Responded(Success(page))]);
            first.pager.shops == page && !first.pager.isLastLoaded
            && Sent(first, RowShown(11)) == Some(Request(21, 20, "ramen"))
    ensures var last := Run(Launched, [SearchClicked("ramen"), Responded(Success(page)), RowShown(11), Responded(Success([]))]);
            last.pager.shops == page && last.pager.isLastLoaded && !last.pager.isLoading
  {
    var s1 := Step(Launched, SearchClicked("ramen"));
    var s2 := Step(s1, Responded(Success(page)));
    var s3 := Step(s2, RowShown(11));
    var s4 := Step(s3, Responded(Success([])));
    assert s1.pending == Some(false);
    assert s2.pager.shops == page && !s2.pager.isLastLoaded && s2.pending.None?;
    assert Triggers(s2, 11);
    assert s3.pending == Some(true);
    assert s4.pager.shops == page + [] == page;
    var e1, e2, e3, e4 := SearchClicked("ramen"), Responded(Success(page)), RowShown(11), Responded(Success([]));
    RunCons(s1, e2, []);
    RunCons(Launched, e1, [e2]);
    RunCons(s3, e4, []);
    RunCons(s2, e3, [e4]);
    RunCons(s1, e2, [e3, e4]);
    RunCons(Launched, e1, [e2, e3, e4]);
  }

  /**
   * A search clicked while the next page is loading is dropped but keeps its
   * keyword: the list still holds the first keyword's shops, the page that
   * arrives is appended to them, and the following page is asked for with
   * the new keyword from the offset of the mixed list.
   */
  lemma SearchWhileLoadingMixesKeywords(page: seq<Shop>, page2: seq<Shop>)
    requires |page| == 20 && |page2| == 20
    ensures var s := Run(Launched, [SearchClicked("ramen"), Responded(Success(page)), RowShown(11),
                                    SearchClicked("sushi"), Responded(Success(page2))]);
            s.pager.shops == page + page2 && s.pager.searchWord == "sushi"
            && Sent(s, RowShown(39)) == Some(Request(41, 20, "sushi"))
  {
    var e1, e2, e3 := SearchClicked("ramen"), Responded(Success(page)), RowShown(11);
    var e4, e5 := SearchClicked("sushi"), Responded(Success(page2));
    var s1 := Step(Launched, e1);
    var s2 := Step(s1, e2);
    var s3 := Step(s2, e3);
    var s4 := Step(s3, e4);
    var s5 := Step(s4, e5);
    assert s2.pager.shops == page && s2.pending.None?;
    assert Triggers(s2, 11);
    assert s3.pending == Some(true);
    assert s4.pending == Some(true) && s4.pager.shops == page;
    assert s5.pager.shops == page + page2 && !s5.pager.isLastLoaded;
    RunCons(s4, e5, []);
    RunCons(s3, e4, [e5]);
    RunCons(s2, e3, [e4, e5]);
    RunCons(s1, e2, [e3, e4, e5]);
    RunCons(Launched, e1, [e2, e3, e4, e5]);
  }

  /**
   * A second search clicked before the first one is answered is lost: nothing
   * is sent, the first keyword's page replaces the list, but the keyword is
   * the second one, so the next page is asked for with it.
   */
  lemma SearchWhileSearchingIsLost(page: seq<Shop>)
    requires |page| == 20
    ensures var s := Run(Launched, [SearchClicked("ramen"), SearchClicked("sushi"), Responded(Success(page))]);
            s.pager.shops == page && s.pager.searchWord == "sushi"
            && Sent(s, RowShown(19)) == Some(Request(21, 20, "sushi"))
  {
    var e1, e2, e3 := SearchClicked("ramen"), SearchClicked("sushi"), Responded(Success(page));
    var s1 := Step(Launched, e1);
    var s2 := Step(s1, e2);
    var s3 := Step(s2, e3);
    assert Sent(s1, e2).None?;
    assert s2.pending == Some(false) && s2.pager.searchWord == "sushi";
    assert s3.pager.shops == page && s3.pending.None? && !s3.pager.isLastLoaded;
    assert Triggers(s3, 19);
    RunCons(s2, e3, []);
    RunCons(s1, e2, [e3]);
    RunCons(Launched, e1, [e2, e3]);
  }

  /** A failed search leaves an empty list, the end of the results and the "no results" status. */
  lemma FailedSearch(word: string)
    ensures var s := Run(Launched, [SearchClicked(word), Responded(Failure)]);
            s.pager.shops == [] && s.pager.isLastLoaded && s.pager.status == NoResultsMessage
  {
    var s1 := Step(Launched, SearchClicked(word));
    assert s1.pending == Some(false);
    RunCons(s1, Responded(Failure), []);
    RunCons(Launched, SearchClicked(word), [Responded(Failure)]);
  }
}

=== FILE: shops.dfy ===
/**
 * A shop as the search screen reads it from one page of API results: only the
 * fields the view controller touches are kept.
 */
module Shops {

  /** The two coupon page variants; either may be the empty string. */
  datatype CouponUrls = CouponUrls(pc: string, sp: string)

  datatype Shop = Shop(
    id: string,
    name: string,
    address: string,
    logoImage: string,
    couponUrls: CouponUrls)

  /**
   * The coupon page that is opened for a shop and stored with a favorite:
   * the mobile (`sp`) page when there is one, otherwise the desktop (`pc`) page.
   */
  function CouponUrl(shop: Shop): (url: string)
    ensures url == shop.couponUrls.sp || url == shop.couponUrls.pc
    ensures shop.couponUrls.sp != "" ==> url == shop.couponUrls.sp
    ensures url == "" <==> shop.couponUrls.sp == "" && shop.couponUrls.pc == ""
  {
    if shop.couponUrls.sp == "" then shop.couponUrls.pc else shop.couponUrls.sp
  }
}

=== FILE: wrappers.dfy ===
/** The optional value used for "a request was issued or not". */
module Wrappers {
  datatype Option<+T> = None | Some(value: T)
}
